=== FILE: README.md ===
# Feasible guide cells — a Dafny model

The script `misc/feasible_regions_complex.py` finds the grid cells of a floor plan
where a group of evacuation guides can be placed. A cell qualifies when `n_guides`
guide disks of radius `max_r` can all be positioned inside it. Each guide disk must
overlap nothing:

- no guide placed earlier;
- no segment of an obstacle line;
- no follower agent loaded from the spawn file.

Each guide is tried by rejection sampling. A candidate point is drawn from the
cell's region with an area-weighted triangle sampler, and its overlaps are counted.
The first candidate with a zero count is kept. After `overlaps` rejected draws the
guide gives up. A cell is recorded when its guide counter reaches `n_guides`.

The project has four modules:

- `Geometry` holds points, the imported distance routines and the guide–guide
  separation. The three routines (`length`, `distance_circle_line`,
  `distance_circles`) are carried as function values in a `Kernel`, so every result
  holds for whatever they compute.
- `Overlap` holds the overlap count of a candidate as the program computes it. It has
  one pass over the placed guides, one over every obstacle's closed ring of segments,
  and one over the agents. Next to it is a declarative description: the candidate is
  `Clear`. The acceptance test `Acceptance(s)` keeps a candidate when its count is
  zero.
- `Sampler` holds the area-weighted sampler:
  - the running area totals;
  - their normalisation by the last total;
  - the left insertion point of a uniform number, computed by binary search;
  - the folded barycentric point inside the chosen triangle.
- `Engine` holds the retry loop of one guide, the guide loop of one cell and the loop
  over all cells. Each is given twice: as a recursive reference function (`Retry`,
  `RunGuides`, `FeasibleIndices`) and as a method that follows the program's loops
  (`PlaceGuide`, `EvaluateCell`, `FindFeasibleCells`). The reference functions are
  stated for any acceptance test; the methods use the overlap count.

The random source is an oracle. A cell's `sample(d)` is the candidate drawn when the
cell's counter `seed` reaches `d`. The counter is reset to 0 for each cell and raised
before every draw, so draw numbers start at 1.

Two behaviours follow the code rather than a reading of its comments:

- A guide that runs out of draws does not end the cell. The `break` on line 231 only
  leaves the retry loop, and the remaining guides are still tried, each spending its
  own draws. The cell can then never be recorded.
- With `n_guides = 0` no cell is ever recorded. The comparison on line 225 is only
  made right after the counter is raised, so it never sees zero.

## Model

| member | source | states |
|---|---|---|
| Geometry.SeparatedAppend | misc/feasible_regions_complex.py:190-223 | appending a candidate that passed the guide–guide test against every placed guide keeps each later guide at least `2 max_r` (by `length(later - earlier)`) from each earlier one |
| Overlap.Ring | misc/feasible_regions_complex.py:199-207 | defines the segments an obstacle is tested as: coordinate `l` joined to coordinate `l + 1`, and the last coordinate joined back to the first; one segment per coordinate |
| Overlap.RingIsClosed | misc/feasible_regions_complex.py:201-207 | the ring is closed: segment `l` runs from coordinate `l` to coordinate `(l + 1) mod n` |
| Overlap.OverlapCount | misc/feasible_regions_complex.py:176-218 | defines `n_overlaps`: the clashing placed guides, plus the hit segments of every obstacle ring, plus the overlapped agents |
| Overlap.GuideTallyZero | misc/feasible_regions_complex.py:190-197 | the number of placed guides with `length(p - q) - 2 max_r < 0` is zero exactly when no placed guide is too close |
| Overlap.SegmentTallyZero | misc/feasible_regions_complex.py:201-209 | the number of segments with a negative circle–line gap is zero exactly when no segment is hit |
| Overlap.ObstacleTallyZero | misc/feasible_regions_complex.py:198-209 | the obstacle pass counts zero exactly when the disk hits no segment of any obstacle's closed ring |
| Overlap.AgentTallyZero | misc/feasible_regions_complex.py:211-218 | the agent pass counts zero exactly when the disk overlaps no agent |
| Overlap.OverlapCountZeroIffClear | misc/feasible_regions_complex.py:176-220 | `n_overlaps == 0` holds exactly when the candidate is clear of guides, obstacle segments and agents (both directions) |
| Overlap.AcceptanceIsClear | misc/feasible_regions_complex.py:220 | the acceptance test keeps a candidate if and only if it is clear |
| Overlap.ZeroCountTestSeparates | misc/feasible_regions_complex.py:190-197 | any test equal to the zero-count test keeps only candidates at least `2 max_r` from every placed guide |
| Overlap.CountGuideOverlaps | misc/feasible_regions_complex.py:190-197 | the loop over the placed guides counts exactly the guides the candidate comes too close to |
| Overlap.CountSegmentOverlaps | misc/feasible_regions_complex.py:199-209 | the loop over one obstacle's coordinates, which pairs the last coordinate with the first, counts exactly the hit segments of the closed ring |
| Overlap.CountObstacleOverlaps | misc/feasible_regions_complex.py:198-209 | the loop over all obstacles counts exactly the hit segments of all rings |
| Overlap.CountAgentOverlaps | misc/feasible_regions_complex.py:211-218 | the loop over the agents counts exactly the agents the disk overlaps |
| Overlap.CountOverlaps | misc/feasible_regions_complex.py:176-218 | the three passes together compute the candidate's overlap count |
| Sampler.SumMonotone | misc/feasible_regions_complex.py:168 | of non-negative areas, a shorter prefix never sums to more than a longer one |
| Sampler.RunningSumsNondecreasing | misc/feasible_regions_complex.py:168 | the cumulative area array is non-negative and nondecreasing |
| Sampler.RunningSumsStep | misc/feasible_regions_complex.py:168 | each cumulative entry adds one triangle's area to the one before |
| Sampler.RunningSumsLast | misc/feasible_regions_complex.py:168-170 | the last cumulative entry, the divisor of the normalisation, is the total area |
| Sampler.AreaCumsum | misc/feasible_regions_complex.py:168 | the running-sum loop yields the cumulative areas; they are nondecreasing and end at the total area |
| Sampler.NormalizedWeights | misc/feasible_regions_complex.py:170 | dividing by the last entry keeps the weights nondecreasing, puts them in [0, 1] and makes the last one exactly 1 |
| Sampler.Weights | misc/feasible_regions_complex.py:168-170 | the normalised weights of a mesh with positive area are nondecreasing, lie in [0, 1] and end at 1 |
| Sampler.NormalizeStep | misc/feasible_regions_complex.py:170 | dividing by the last total divides the step between neighbouring totals by that total |
| Sampler.WeightsAreAreaShares | misc/feasible_regions_complex.py:168-170 | weight `i` is weight `i - 1` (0 for the first) plus triangle `i`'s share of the total area, so a uniform number chooses each triangle with probability proportional to its area |
| Sampler.LowerBound | misc/feasible_regions_complex.py:180 | defines the left insertion point: the index of the first weight at least `x`, or the number of weights when there is none |
| Sampler.LowerBoundIsFirstAtLeast | misc/feasible_regions_complex.py:180 | the chosen index is the first whose weight is at least `x`: all weights before it are below `x` |
| Sampler.LowerBoundUnique | misc/feasible_regions_complex.py:180 | any index with weights below `x` before it and a weight at least `x` at it is the chosen one |
| Sampler.LowerBoundInRange | misc/feasible_regions_complex.py:180-187 | with a last weight at least `x` the index is a valid triangle index |
| Sampler.SearchSorted | misc/feasible_regions_complex.py:180 | the binary search returns the left insertion point of `x` in the sorted weights |
| Sampler.PositiveDrawPicksPositiveArea | misc/feasible_regions_complex.py:178-187 | a positive uniform number never selects a triangle of zero area |
| Sampler.Fold | misc/feasible_regions_complex.py:188 | the folded pair of uniform numbers lies in the unit simplex, kept when its sum is at most 1 and reflected otherwise |
| Sampler.SampleTriangle | misc/feasible_regions_complex.py:188 | the sampled point lies in the closed triangle `abc` |
| Sampler.SampleMesh | misc/feasible_regions_complex.py:178-188 | one candidate: a valid triangle index chosen by the search, with a point inside that triangle |
| Engine.Retry | misc/feasible_regions_complex.py:173-231 | defines one guide's retry loop: raise the counter, draw, keep the first candidate the test accepts, give up after `overlaps` draws |
| Engine.RetryOutcome | misc/feasible_regions_complex.py:173-231 | a guide draws at most `overlaps` candidates, all of them when it gives up; a kept candidate passed the test and is the last draw |
| Engine.RetryRejectsEarlier | misc/feasible_regions_complex.py:173-231 | every candidate drawn before the kept one was rejected; a guide that gives up rejected all of its draws |
| Engine.RetryFirstClear | misc/feasible_regions_complex.py:173-231 | under the overlap count the kept candidate is the first clear one drawn |
| Engine.RunGuides | misc/feasible_regions_complex.py:89-231 | defines the guide loop of a cell: guide `j` runs its retry loop against the guides placed before it, and a guide that gives up is counted as missed while the next guides are still tried |
| Engine.CellFeasible | misc/feasible_regions_complex.py:224-226 | defines when a cell is recorded: at least one guide is asked for and no guide gave up |
| Engine.RunGuidesCount | misc/feasible_regions_complex.py:220-231 | every guide tried is either placed or missed, and each appends at most one point |
| Geometry.SeparatedPairwise | misc/feasible_regions_complex.py:190-197 | for a `length` that is symmetric, any two distinct guides of a separated sequence are at least `2 max_r` apart, whichever is taken first |
| Engine.RunGuidesSeparated | misc/feasible_regions_complex.py:190-223 | under a test that enforces guide distance, each placed guide is at least `2 max_r` (by `length(later - earlier)`) from every guide placed before it |
| Engine.CellGuidesSeparated | misc/feasible_regions_complex.py:190-223 | under the overlap count each placed guide of a cell is at least `2 max_r` (by `length(later - earlier)`) from every guide placed before it |
| Engine.RunGuidesSeedBound | misc/feasible_regions_complex.py:173-174 | a cell draws at most `overlaps` candidates per guide tried |
| Engine.FeasibleIffAllPlaced | misc/feasible_regions_complex.py:224-226 | a cell is recorded if and only if at least one guide is asked for and all of them are placed |
| Engine.RejectedCellSpendsEveryBudget | misc/feasible_regions_complex.py:228-231 | when every candidate is rejected, each guide spends its whole budget, nothing is placed and the cell is not recorded |
| Engine.BlockedCellSpendsEveryBudget | misc/feasible_regions_complex.py:211-231 | a cell whose candidates all overlap an agent spends every guide's budget and is not recorded |
| Engine.EmptySceneSingleGuide | misc/feasible_regions_complex.py:190-227 | with no obstacles and no agents the first draw is kept, and a one-guide cell is recorded |
| Engine.PlacedPointsAreDraws | misc/feasible_regions_complex.py:174-188 | every placed guide is a candidate drawn at a draw number no later than the cell's counter |
| Engine.SampledPointInMesh | misc/feasible_regions_complex.py:178-188 | a sampled candidate lies in a triangle of the mesh |
| Engine.SamplerStaysInMesh | misc/feasible_regions_complex.py:178-188 | a sampler fed with valid random numbers yields only points of the mesh |
| Engine.DrawnPointsInMesh | misc/feasible_regions_complex.py:174-188 | drawn points of a sampler that stays in the mesh lie in the mesh |
| Engine.PlacedGuidesLieInMesh | misc/feasible_regions_complex.py:163-223 | every placed guide lies in a triangle of the cell's mesh |
| Engine.FeasibleIndices | misc/feasible_regions_complex.py:84-226 | defines the record: the indices of the feasible cells, appended in processing order |
| Engine.FeasiblePositions | misc/feasible_regions_complex.py:84-226 | defines the positions in the cell list of the feasible cells, in processing order |
| Engine.FeasiblePositionsAlign | misc/feasible_regions_complex.py:224-226 | entry `k` of the record is the index of the cell at feasible position `k`, and that cell is feasible |
| Engine.FeasiblePositionsIncreasing | misc/feasible_regions_complex.py:84-226 | the feasible positions strictly increase and are valid positions, because the cells are visited once each, in order |
| Engine.FeasiblePositionsComplete | misc/feasible_regions_complex.py:83-226 | every feasible cell's position is among the feasible positions |
| Engine.FeasibleIndicesExact | misc/feasible_regions_complex.py:83-226 | the record is the subsequence of the cell indices at the feasible cells: each feasible cell contributes exactly one entry, in visiting order, and nothing else is recorded |
| Engine.FeasibleIndicesOrdered | misc/feasible_regions_complex.py:73-79 | cells taken in increasing grid order give a strictly increasing record without duplicates |
| Engine.NoGuidesRecordsNothing | misc/feasible_regions_complex.py:224-226 | with `n_guides = 0` nothing is recorded |
| Engine.PlaceGuide | misc/feasible_regions_complex.py:173-231 | the retry loop as written (raise `seed`, draw, count, keep on zero, give up after `overlaps` draws) computes the reference retry |
| Engine.EvaluateCell | misc/feasible_regions_complex.py:85-231 | the guide loop as written places the reference guides; its feasible flag is set exactly when all `n_guides >= 1` guides are placed; the guides are separated |
| Engine.FindFeasibleCells | misc/feasible_regions_complex.py:84-226 | the loop over the cells appends exactly the reference record: every feasible cell's index, in increasing order when the cells are |

## Left out

- Shapely geometry is not modelled. This covers the grid polygonisation, the intersection with the domain, the difference with the buffered obstacles, convex hulls and the Delaunay triangulation (lines 42-79, 91, 93-102, 163-166). Cells enter the model already as index and sampler pairs, and a region enters as its triangle mesh.
- The distance routines come from a library that is not part of this model. They are parameters (`Kernel`), so no property depends on what they compute.
- The random source is an oracle `sample: nat -> Point`. The model does not reproduce that `np.random.random(seed)` returns an array of `seed` numbers of which only the first is used.
- The multi-polygon branch (lines 93-159) is left out as written. Line 114 keeps the whole one-element index array that `np.searchsorted` returns, so `meshes[rand_triangle]` at line 115 has shape (1, 3, 2) and the unpacking `a, b, c = ...` raises a ValueError on the first draw of any multi-polygon cell. That stops the whole script before the record is printed or saved (lines 234-235). `Engine.RunGuides` and `Engine.EvaluateCell` describe such a cell only as if line 115 took element 0, as line 180 does; its retry and overlap loop is then the same as the single-polygon branch's, with the sampler as an oracle. Its mesh construction (lines 95-106, which concatenate the parts' meshes in reverse order) is not modelled.
- `geom` is recomputed for every guide. The model treats it as the same region for the whole cell, which it is.
- The redundant `if k == overlaps: break` (lines 229-231) is left out. The loop condition exits at the same point.
- Floating-point rounding is not modelled. Coordinates and weights are exact reals.
- Sampler.SampleMesh: requires a non-empty mesh of positive total area. On an empty mesh the program fails with an index error, and on zero total area the division produces NaN weights. Neither error path is modelled.
- Sampler.Fold: the triangle sampler `random_sample_triangle` and the area routine `triangle_area_cumsum` come from a library that is not part of this model; line 13 only imports them. The model assumes the usual construction: reflect `(u, v)` to `(1 - u, 1 - v)` when `u + v > 1` and take the point `a + u (b - a) + v (c - a)`, with each triangle's area half the absolute cross product of two edges. Downstream, only the fact that the point lies in the chosen triangle (`InTriangle`) is relied on.
- Engine.PlaceGuide: states the equality with the reference retry and the draw bounds. Which candidate is kept and which are rejected is proved about the reference by `Engine.RetryFirstClear`.
- Loading the agents and saving or printing the record are left out. These are input and output.

=== FILE: engine.dfy ===
/** The per-cell feasibility test. For every candidate cell the program tries to
    place `nGuides` guides one after another; each guide gets at most `budget`
    sampled candidates, and the first candidate the acceptance test keeps is
    placed. The cell is recorded as feasible when every one of its guides is
    placed.

    The loop is stated for any acceptance test `accept(placed, p)`; the program's
    own test is `Acceptance(s)` of the overlap check, under which a candidate is
    kept exactly when it is clear. The random sampler is an oracle: a cell's
    `sample(d)` is the candidate drawn when the cell's draw counter (`seed`, reset
    to zero for every cell and raised by one before every draw) reaches `d`. */
module Engine {
  import opened Geometry
  import opened Overlap
  import opened Sampler

  datatype Option<T> = None | Some(value: T)

  /** A grid cell whose intersection with the domain is a single polygon: its
      index in the grid and the candidates its region's sampler yields. */
  datatype Cell = Cell(index: nat, sample: nat -> Point)

  /** The outcome of one guide's retry loop: the accepted position, if any, and
      the draw counter after the loop. */
  datatype Trial = Trial(placed: Option<Point>, seed: nat)

  /** The retry loop of one guide with `tries` attempts left, the draw counter at
      `seed` and the guides `placed` so far: the first accepted candidate is kept. */
  function Retry(accept: (seq<Point>, Point) -> bool, sample: nat -> Point, placed: seq<Point>, seed: nat, tries: nat): Trial
    decreases tries
  {
    if tries == 0 then Trial(None, seed)
    else if accept(placed, sample(seed + 1)) then Trial(Some(sample(seed + 1)), seed + 1)
    else Retry(accept, sample, placed, seed + 1, tries - 1)
  }

  /** A guide's retry loop draws at most `tries` candidates and all of them when it
      gives up; a kept candidate passed the test and is the one of its last draw. */
  lemma {:induction false} RetryOutcome(accept: (seq<Point>, Point) -> bool, sample: nat -> Point, placed: seq<Point>, seed: nat, tries: nat)
    ensures seed <= Retry(accept, sample, placed, seed, tries).seed <= seed + tries
    ensures Retry(accept, sample, placed, seed, tries).placed.None? ==>
      Retry(accept, sample, placed, seed, tries).seed == seed + tries
    ensures Retry(accept, sample, placed, seed, tries).placed.Some? ==>
      var t := Retry(accept, sample, placed, seed, tries);
      seed < t.seed && t.placed.value == sample(t.seed) && accept(placed, t.placed.value)
    decreases tries
  {
    if tries > 0 && !accept(placed, sample(seed + 1)) {
      RetryOutcome(accept, sample, placed, seed + 1, tries - 1);
    }
  }

  /** Every candidate a guide's retry loop drew before the kept one was rejected,
      and when the loop gives up, every candidate it drew was rejected. */
  lemma {:induction false} RetryRejectsEarlier(accept: (seq<Point>, Point) -> bool, sample: nat -> Point, placed: seq<Point>, seed: nat, tries: nat)
    ensures forall d :: seed < d < Retry(accept, sample, placed, seed, tries).seed ==>
      !accept(placed, sample(d))
    ensures Retry(accept, sample, placed, seed, tries).placed.None? ==>
      forall d :: seed < d <= seed + tries ==> !accept(placed, sample(d))
    decreases tries
  {
    if tries > 0 && !accept(placed, sample(seed + 1)) {
      RetryRejectsEarlier(accept, sample, placed, seed + 1, tries - 1);
      RetryOutcome(accept, sample, placed, seed + 1, tries - 1);
    }
  }

  /** Under the program's test the retry loop keeps the first clear candidate it
      draws: the kept candidate is clear and every candidate drawn before it is
      not; a loop that gives up drew no clear candidate at all. */
  lemma RetryFirstClear(s: Scene, sample: nat -> Point, placed: seq<Point>, seed: nat, tries: nat)
    ensures Retry(Acceptance(s), sample, placed, seed, tries).placed.Some? ==>
      Clear(s, placed, Retry(Acceptance(s), sample, placed, seed, tries).placed.value)
    ensures forall d :: seed < d < Retry(Acceptance(s), sample, placed, seed, tries).seed ==>
      !Clear(s, placed, sample(d))
    ensures Retry(Acceptance(s), sample, placed, seed, tries).placed.None? ==>
      forall d :: seed < d <= seed + tries ==> !Clear(s, placed, sample(d))
  {
    AcceptanceIsClear(s);
    RetryOutcome(Acceptance(s), sample, placed, seed, tries);
    RetryRejectsEarlier(Acceptance(s), sample, placed, seed, tries);
  }

  /** The state of a cell after its first `j` guides were tried: the guides placed,
      in order, the number of guides whose budget ran out, and the draw counter. */
  datatype CellRun = CellRun(points: seq<Point>, missed: nat, seed: nat)

  /** The guide loop of a cell: guide `j` runs its retry loop against the guides
      placed before it. A guide that runs out of budget is only counted as missed;
      the following guides are still tried. */
  function RunGuides(accept: (seq<Point>, Point) -> bool, sample: nat -> Point, budget: nat, j: nat): CellRun {
    if j == 0 then CellRun([], 0, 0)
    else
      var prev := RunGuides(accept, sample, budget, j - 1);
      var t := Retry(accept, sample, prev.points, prev.seed, budget);
      match t.placed
      case Some(p) => CellRun(prev.points + [p], prev.missed, t.seed)
      case None => CellRun(prev.points, prev.missed + 1, t.seed)
  }

  /** A cell is feasible when it asks for at least one guide and none of its guides
      ran out of budget. */
  predicate CellFeasible(accept: (seq<Point>, Point) -> bool, c: Cell, nGuides: nat, budget: nat) {
    0 < nGuides && RunGuides(accept, c.sample, budget, nGuides).missed == 0
  }

  /** Every guide tried is either placed or missed, and each guide appends at most
      one point to the ones placed before it. */
  lemma {:induction false} RunGuidesCount(accept: (seq<Point>, Point) -> bool, sample: nat -> Point, budget: nat, j: nat)
    ensures |RunGuides(accept, sample, budget, j).points| + RunGuides(accept, sample, budget, j).missed == j
    ensures 0 < j ==>
      var prev := RunGuides(accept, sample, budget, j - 1).points;
      var now := RunGuides(accept, sample, budget, j).points;
      prev <= now && |now| <= |prev| + 1
  {
    if j > 0 {
      RunGuidesCount(accept, sample, budget, j - 1);
    }
  }

  /** When the test only accepts candidates that keep two radii from every placed
      guide, each guide placed in a cell keeps two radii (by `length`) from every
      guide placed before it. */
  lemma {:induction false} RunGuidesSeparated(accept: (seq<Point>, Point) -> bool, k: Kernel, r: real, sample: nat -> Point, budget: nat, j: nat)
    requires forall placed, p :: accept(placed, p) ==> forall i :: 0 <= i < |placed| ==> !GuidesClash(k, p, placed[i], r)
    ensures Separated(k, RunGuides(accept, sample, budget, j).points, r)
  {
    if j > 0 {
      var prev := RunGuides(accept, sample, budget, j - 1);
      RunGuidesSeparated(accept, k, r, sample, budget, j - 1);
      RetryOutcome(accept, sample, prev.points, prev.seed, budget);
      var t := Retry(accept, sample, prev.points, prev.seed, budget);
      if t.placed.Some? {
        SeparatedAppend(k, prev.points, t.placed.value, r);
      }
    }
  }

  /** Under the program's test each guide placed in a cell keeps two radii (by
      `length`) from every guide placed before it. */
  lemma CellGuidesSeparated(s: Scene, sample: nat -> Point, budget: nat, j: nat)
    ensures Separated(s.geo, RunGuides(Acceptance(s), sample, budget, j).points, s.maxR)
  {
    AcceptanceIsClear(s);
    RunGuidesSeparated(Acceptance(s), s.geo, s.maxR, sample, budget, j);
  }

  /** A cell draws at most `budget` candidates per guide tried. */
  lemma {:induction false} RunGuidesSeedBound(accept: (seq<Point>, Point) -> bool, sample: nat -> Point, budget: nat, j: nat)
    ensures RunGuides(accept, sample, budget, j).seed <= j * budget
  {
    if j > 0 {
      var prev := RunGuides(accept, sample, budget, j - 1);
      RunGuidesSeedBound(accept, sample, budget, j - 1);
      RetryOutcome(accept, sample, prev.points, prev.seed, budget);
      assert (j - 1) * budget + budget == j * budget;
    }
  }

  /** A cell is recorded exactly when it asks for at least one guide and all of
      them are placed. */
  lemma FeasibleIffAllPlaced(accept: (seq<Point>, Point) -> bool, c: Cell, nGuides: nat, budget: nat)
    ensures CellFeasible(accept, c, nGuides, budget) <==>
      0 < nGuides && |RunGuides(accept, c.sample, budget, nGuides).points| == nGuides
  {
    RunGuidesCount(accept, c.sample, budget, nGuides);
  }

  /** A missed guide does not stop the cell: when the test rejects every candidate
      of the cell, every guide spends its whole budget, nothing is placed and the
      cell is not recorded. */
  lemma {:induction false} RejectedCellSpendsEveryBudget(accept: (seq<Point>, Point) -> bool, c: Cell, budget: nat, j: nat)
    requires forall placed, d :: 0 < d ==> !accept(placed, c.sample(d))
    ensures RunGuides(accept, c.sample, budget, j) == CellRun([], j, j * budget)
    ensures 0 < j ==> !CellFeasible(accept, c, j, budget)
  {
    if j > 0 {
      RejectedCellSpendsEveryBudget(accept, c, budget, j - 1);
      var prev := RunGuides(accept, c.sample, budget, j - 1);
      RetryOutcome(accept, c.sample, prev.points, prev.seed, budget);
      assert (j - 1) * budget + budget == j * budget;
    }
  }

  /** Under the program's test, a cell none of whose candidates is clear of the
      agents spends every guide's budget and is not recorded. */
  lemma BlockedCellSpendsEveryBudget(s: Scene, c: Cell, budget: nat, j: nat)
    requires forall d :: 0 < d ==> !ClearOfAgents(s, s.agents, c.sample(d))
    ensures RunGuides(Acceptance(s), c.sample, budget, j) == CellRun([], j, j * budget)
    ensures 0 < j ==> !CellFeasible(Acceptance(s), c, j, budget)
  {
    AcceptanceIsClear(s);
    RejectedCellSpendsEveryBudget(Acceptance(s), c, budget, j);
  }

  /** With no obstacles and no agents the first candidate of a cell is always
      kept, so a cell asking for a single guide is recorded whenever the budget
      allows one draw. */
  lemma EmptySceneSingleGuide(s: Scene, c: Cell, budget: nat)
    requires |s.obstacles| == 0 && |s.agents| == 0 && 0 < budget
    ensures RunGuides(Acceptance(s), c.sample, budget, 1) == CellRun([c.sample(1)], 0, 1)
    ensures CellFeasible(Acceptance(s), c, 1, budget)
  {
    AcceptanceIsClear(s);
    assert Clear(s, [], c.sample(1));
  }

  /** Every point of `pts` is the candidate of some draw numbered 1 to `seed`. */
  ghost predicate DrawnBy(pts: seq<Point>, sample: nat -> Point, seed: nat) {
    forall i :: 0 <= i < |pts| ==> exists d: nat :: 0 < d <= seed && pts[i] == sample(d)
  }

  /** Every placed guide is a candidate the cell drew, at a draw number no later
      than the cell's draw counter. */
  lemma {:induction false} PlacedPointsAreDraws(accept: (seq<Point>, Point) -> bool, sample: nat -> Point, budget: nat, j: nat)
    ensures DrawnBy(RunGuides(accept, sample, budget, j).points, sample, RunGuides(accept, sample, budget, j).seed)
  {
    if j > 0 {
      var prev := RunGuides(accept, sample, budget, j - 1);
      var run := RunGuides(accept, sample, budget, j);
      PlacedPointsAreDraws(accept, sample, budget, j - 1);
      RetryOutcome(accept, sample, prev.points, prev.seed, budget);
      var t := Retry(accept, sample, prev.points, prev.seed, budget);
      assert prev.seed <= run.seed == t.seed;
      forall i | 0 <= i < |run.points|
        ensures exists d: nat :: 0 < d <= run.seed && run.points[i] == sample(d)
      {
        if i < |prev.points| {
          assert run.points[i] == prev.points[i];
          var d: nat :| 0 < d <= prev.seed && prev.points[i] == sample(d);
          assert 0 < d <= run.seed && run.points[i] == sample(d);
        } else {
          assert t.placed.Some? && run.points[i] == t.placed.value;
          assert 0 < t.seed <= run.seed && run.points[i] == sample(t.seed);
        }
      }
      assert DrawnBy(run.points, sample, run.seed);
    }
  }

  /** A point the mesh sampler yields lies in a triangle of the mesh. */
  lemma SampledPointInMesh(mesh: seq<Triangle>, d: Draw)
    requires ValidMesh(mesh) && ValidDraw(d)
    ensures InMesh(SampleMesh(mesh, d).1, mesh)
  {
    var r := SampleMesh(mesh, d);
    assert 0 <= r.0 < |mesh| && InTriangle(r.1, mesh[r.0]);
  }

  /** Every candidate of a sampler fed with valid draws lies in the mesh. */
  lemma SamplerStaysInMesh(sample: nat -> Point, mesh: seq<Triangle>, draws: nat -> Draw)
    requires ValidMesh(mesh)
    requires forall d :: ValidDraw(draws(d))
    requires forall d :: sample(d) == SampleMesh(mesh, draws(d)).1
    ensures forall d :: InMesh(sample(d), mesh)
  {
    forall d ensures InMesh(sample(d), mesh) {
      SampledPointInMesh(mesh, draws(d));
    }
  }

  /** Drawn points of a sampler that stays in the mesh lie in the mesh. */
  lemma DrawnPointsInMesh(pts: seq<Point>, sample: nat -> Point, seed: nat, mesh: seq<Triangle>)
    requires DrawnBy(pts, sample, seed)
    requires forall d :: InMesh(sample(d), mesh)
    ensures forall i :: 0 <= i < |pts| ==> InMesh(pts[i], mesh)
  {
    forall i | 0 <= i < |pts| ensures InMesh(pts[i], mesh) {
      var d: nat :| 0 < d <= seed && pts[i] == sample(d);
      assert InMesh(sample(d), mesh);
    }
  }

  /** When a cell's candidates come from the area-weighted sampler of its mesh,
      every guide placed in the cell lies in a triangle of that mesh. */
  lemma PlacedGuidesLieInMesh(accept: (seq<Point>, Point) -> bool, c: Cell, mesh: seq<Triangle>, draws: nat -> Draw, budget: nat, nGuides: nat)
    requires ValidMesh(mesh)
    requires forall d :: ValidDraw(draws(d))
    requires forall d :: c.sample(d) == SampleMesh(mesh, draws(d)).1
    ensures forall i :: 0 <= i < |RunGuides(accept, c.sample, budget, nGuides).points| ==>
      InMesh(RunGuides(accept, c.sample, budget, nGuides).points[i], mesh)
  {
    var run := RunGuides(accept, c.sample, budget, nGuides);
    PlacedPointsAreDraws(accept, c.sample, budget, nGuides);
    SamplerStaysInMesh(c.sample, mesh, draws);
    DrawnPointsInMesh(run.points, c.sample, run.seed, mesh);
  }

  /** The indices recorded over the cells, in processing order. */
  function FeasibleIndices(accept: (seq<Point>, Point) -> bool, cells: seq<Cell>, nGuides: nat, budget: nat): seq<nat> {
    if |cells| == 0 then []
    else
      var init := FeasibleIndices(accept, cells[..|cells| - 1], nGuides, budget);
      var c := cells[|cells| - 1];
      if CellFeasible(accept, c, nGuides, budget) then init + [c.index] else init
  }

  predicate StrictlyIncreasing(xs: seq<nat>) {
    forall i, j :: 0 <= i < j < |xs| ==> xs[i] < xs[j]
  }

  /** The cells are listed in strictly increasing index order. */
  predicate IndexOrdered(cells: seq<Cell>) {
    forall i, j :: 0 <= i < j < |cells| ==> cells[i].index < cells[j].index
  }


  /** The positions, in the cell list, of the feasible cells, in processing order. */
  function FeasiblePositions(accept: (seq<Point>, Point) -> bool, cells: seq<Cell>, nGuides: nat, budget: nat): seq<nat> {
    if |cells| == 0 then []
    else
      var init := FeasiblePositions(accept, cells[..|cells| - 1], nGuides, budget);
      if CellFeasible(accept, cells[|cells| - 1], nGuides, budget) then init + [|cells| - 1] else init
  }

  /** The record and the feasible positions run in step: entry `k` of the record is
      the index of the cell at position `k` of the positions, a feasible cell. */
  lemma {:induction false} FeasiblePositionsAlign(accept: (seq<Point>, Point) -> bool, cells: seq<Cell>, nGuides: nat, budget: nat)
    ensures |FeasiblePositions(accept, cells, nGuides, budget)| == |FeasibleIndices(accept, cells, nGuides, budget)|
    ensures forall k :: 0 <= k < |FeasiblePositions(accept, cells, nGuides, budget)| ==>
      var i := FeasiblePositions(accept, cells, nGuides, budget)[k];
      i < |cells| && FeasibleIndices(accept, cells, nGuides, budget)[k] == cells[i].index &&
      CellFeasible(accept, cells[i], nGuides, budget)
  {
    if |cells| > 0 {
      var init := cells[..|cells| - 1];
      FeasiblePositionsAlign(accept, init, nGuides, budget);
      var m0 := FeasiblePositions(accept, init, nGuides, budget);
      var r0 := FeasibleIndices(accept, init, nGuides, budget);
      var m := FeasiblePositions(accept, cells, nGuides, budget);
      var r := FeasibleIndices(accept, cells, nGuides, budget);
      forall k | 0 <= k < |m|
        ensures m[k] < |cells| && r[k] == cells[m[k]].index && CellFeasible(accept, cells[m[k]], nGuides, budget)
      {
        if k < |m0| {
          assert m[k] == m0[k] && r[k] == r0[k];
          assert init[m0[k]] == cells[m0[k]];
        }
      }
    }
  }

  /** The feasible positions strictly increase and stay below the number of cells. */
  lemma {:induction false} FeasiblePositionsIncreasing(accept: (seq<Point>, Point) -> bool, cells: seq<Cell>, nGuides: nat, budget: nat)
    ensures forall k :: 0 <= k < |FeasiblePositions(accept, cells, nGuides, budget)| ==>
      FeasiblePositions(accept, cells, nGuides, budget)[k] < |cells|
    ensures StrictlyIncreasing(FeasiblePositions(accept, cells, nGuides, budget))
  {
    if |cells| > 0 {
      FeasiblePositionsIncreasing(accept, cells[..|cells| - 1], nGuides, budget);
    }
  }

  /** Every feasible cell's position is among the feasible positions. */
  lemma {:induction false} FeasiblePositionsComplete(accept: (seq<Point>, Point) -> bool, cells: seq<Cell>, nGuides: nat, budget: nat)
    ensures forall i :: 0 <= i < |cells| && CellFeasible(accept, cells[i], nGuides, budget) ==>
      i in FeasiblePositions(accept, cells, nGuides, budget)
  {
    if |cells| > 0 {
      var init := cells[..|cells| - 1];
      FeasiblePositionsComplete(accept, init, nGuides, budget);
      forall i | 0 <= i < |init| ensures init[i] == cells[i] {}
    }
  }

  /** The record is the subsequence of the cell indices taken at the feasible
      cells: entry `k` is the index of the cell at position `m[k]`, the positions
      `m` strictly increase, each of them holds a feasible cell and every feasible
      cell's position is among them. So every feasible cell is recorded once and
      nothing else is recorded. */
  lemma {:induction false} FeasibleIndicesExact(accept: (seq<Point>, Point) -> bool, cells: seq<Cell>, nGuides: nat, budget: nat)
    ensures |FeasiblePositions(accept, cells, nGuides, budget)| == |FeasibleIndices(accept, cells, nGuides, budget)| <= |cells|
    ensures StrictlyIncreasing(FeasiblePositions(accept, cells, nGuides, budget))
    ensures forall k :: 0 <= k < |FeasiblePositions(accept, cells, nGuides, budget)| ==>
      var i := FeasiblePositions(accept, cells, nGuides, budget)[k];
      i < |cells| && FeasibleIndices(accept, cells, nGuides, budget)[k] == cells[i].index &&
      CellFeasible(accept, cells[i], nGuides, budget)
    ensures forall i :: 0 <= i < |cells| && CellFeasible(accept, cells[i], nGuides, budget) ==>
      i in FeasiblePositions(accept, cells, nGuides, budget)
    ensures forall x :: x in FeasibleIndices(accept, cells, nGuides, budget) ==>
      exists i :: 0 <= i < |cells| && cells[i].index == x && CellFeasible(accept, cells[i], nGuides, budget)
    ensures forall i :: 0 <= i < |cells| && CellFeasible(accept, cells[i], nGuides, budget) ==>
      cells[i].index in FeasibleIndices(accept, cells, nGuides, budget)
  {
    var m := FeasiblePositions(accept, cells, nGuides, budget);
    var r := FeasibleIndices(accept, cells, nGuides, budget);
    FeasiblePositionsAlign(accept, cells, nGuides, budget);
    FeasiblePositionsIncreasing(accept, cells, nGuides, budget);
    FeasiblePositionsComplete(accept, cells, nGuides, budget);
    StrictlyIncreasingBounded(m, |cells|);
    forall x | x in r
      ensures exists i :: 0 <= i < |cells| && cells[i].index == x && CellFeasible(accept, cells[i], nGuides, budget)
    {
      var k :| 0 <= k < |r| && r[k] == x;
      assert 0 <= m[k] < |cells| && cells[m[k]].index == x;
    }
    forall i | 0 <= i < |cells| && CellFeasible(accept, cells[i], nGuides, budget)
      ensures cells[i].index in r
    {
      var k :| 0 <= k < |m| && m[k] == i;
      assert r[k] == cells[i].index;
    }
  }

  /** A strictly increasing sequence of numbers below `n` has at most `n` entries. */
  lemma {:induction false} StrictlyIncreasingBounded(xs: seq<nat>, n: nat)
    requires StrictlyIncreasing(xs)
    requires forall k :: 0 <= k < |xs| ==> xs[k] < n
    ensures |xs| <= n
    decreases n
  {
    if 0 < |xs| {
      var init := xs[..|xs| - 1];
      assert xs[|xs| - 1] < n;
      forall k | 0 <= k < |init| ensures init[k] < n - 1 {
        assert init[k] == xs[k] < xs[|xs| - 1];
      }
      StrictlyIncreasingBounded(init, n - 1);
    }
  }

  /** When the cells are processed in increasing index order, as the grid is, the
      record is strictly increasing, so no index appears twice. */
  lemma FeasibleIndicesOrdered(accept: (seq<Point>, Point) -> bool, cells: seq<Cell>, nGuides: nat, budget: nat)
    requires IndexOrdered(cells)
    ensures StrictlyIncreasing(FeasibleIndices(accept, cells, nGuides, budget))
  {
    var m := FeasiblePositions(accept, cells, nGuides, budget);
    var r := FeasibleIndices(accept, cells, nGuides, budget);
    FeasiblePositionsAlign(accept, cells, nGuides, budget);
    FeasiblePositionsIncreasing(accept, cells, nGuides, budget);
    forall k, l | 0 <= k < l < |r| ensures r[k] < r[l] {
      assert m[k] < m[l] < |cells|;
      assert r[k] == cells[m[k]].index && r[l] == cells[m[l]].index;
    }
  }

  /** With no guide asked for, nothing is recorded. */
  lemma {:induction false} NoGuidesRecordsNothing(accept: (seq<Point>, Point) -> bool, cells: seq<Cell>, budget: nat)
    ensures FeasibleIndices(accept, cells, 0, budget) == []
  {
    if |cells| > 0 {
      NoGuidesRecordsNothing(accept, cells[..|cells| - 1], budget);
    }
  }

  /** One guide's retry loop as the program runs it: raise the draw counter, draw,
      count overlaps, keep the candidate on a zero count, and give up after
      `budget` rejected draws. */
  method PlaceGuide(s: Scene, ghost accept: (seq<Point>, Point) -> bool, sample: nat -> Point, placed: seq<Point>, seed0: nat, budget: nat)
    returns (guide: Option<Point>, seed: nat)
    requires IsZeroCountTest(s, accept)
    ensures Trial(guide, seed) == Retry(accept, sample, placed, seed0, budget)
    ensures seed0 <= seed <= seed0 + budget
    ensures guide.Some? ==> guide.value == sample(seed)
    ensures guide.None? ==> seed == seed0 + budget
  {
    seed := seed0;
    guide := None;
    var k := 0;
    while k < budget
      invariant 0 <= k <= budget && seed == seed0 + k
      invariant Retry(accept, sample, placed, seed0, budget) == Retry(accept, sample, placed, seed, budget - k)
      decreases budget - k
    {
      seed := seed + 1;
      var p := sample(seed);
      var n := CountOverlaps(s, placed, p);
      if n == 0 {
        guide := Some(p);
        return;
      }
      k := k + 1;
    }
  }

  /** The guide loop of one cell: the placed guides and the draw counter start
      afresh; `guideCounter` follows the number of placed guides, and the cell
      is marked feasible when the counter reaches `nGuides` on an acceptance. */
  method EvaluateCell(s: Scene, ghost accept: (seq<Point>, Point) -> bool, c: Cell, nGuides: nat, budget: nat)
    returns (points: seq<Point>, feasible: bool)
    requires IsZeroCountTest(s, accept)
    ensures points == RunGuides(accept, c.sample, budget, nGuides).points
    ensures feasible == CellFeasible(accept, c, nGuides, budget)
    ensures feasible <==> 0 < nGuides && |points| == nGuides
    ensures |points| <= nGuides
    ensures Separated(s.geo, points, s.maxR)
  {
    var seed := 0;
    points := [];
    var guideCounter := 0;
    feasible := false;
    for j := 0 to nGuides
      invariant guideCounter == |points| <= j
      invariant RunGuides(accept, c.sample, budget, j) == CellRun(points, j - guideCounter, seed)
      invariant feasible <==> 0 < j && guideCounter == nGuides
    {
      ghost var prev := CellRun(points, j - guideCounter, seed);
      var guide;
      guide, seed := PlaceGuide(s, accept, c.sample, points, seed, budget);
      if guide.Some? {
        points := points + [guide.value];
        guideCounter := guideCounter + 1;
        if guideCounter == nGuides {
          feasible := true;
        }
        assert RunGuides(accept, c.sample, budget, j + 1) == CellRun(prev.points + [guide.value], prev.missed, seed);
      } else {
        assert RunGuides(accept, c.sample, budget, j + 1) == CellRun(prev.points, prev.missed + 1, seed);
      }
    }
    RunGuidesCount(accept, c.sample, budget, nGuides);
    ZeroCountTestSeparates(s, accept);
    RunGuidesSeparated(accept, s.geo, s.maxR, c.sample, budget, nGuides);
  }

  /** The cell loop: every cell is evaluated in turn and its index appended when
      it is feasible. */
  method FindFeasibleCells(s: Scene, cells: seq<Cell>, nGuides: nat, budget: nat) returns (feasible: seq<nat>)
    ensures feasible == FeasibleIndices(Acceptance(s), cells, nGuides, budget)
    ensures forall i :: 0 <= i < |cells| ==>
      (CellFeasible(Acceptance(s), cells[i], nGuides, budget) ==> cells[i].index in feasible)
    ensures IndexOrdered(cells) ==> StrictlyIncreasing(feasible)
    ensures nGuides == 0 ==> feasible == []
  {
    ghost var accept := Acceptance(s);
    AcceptanceIsZeroCountTest(s);
    feasible := [];
    for i := 0 to |cells|
      invariant feasible == FeasibleIndices(accept, cells[..i], nGuides, budget)
    {
      var points, ok := EvaluateCell(s, accept, cells[i], nGuides, budget);
      assert cells[..i + 1][..i] == cells[..i];
      if ok {
        feasible := feasible + [cells[i].index];
      }
    }
    assert cells[..|cells|] == cells;
    FeasibleIndicesExact(accept, cells, nGuides, budget);
    if IndexOrdered(cells) {
      FeasibleIndicesOrdered(accept, cells, nGuides, budget);
    }
    NoGuidesRecordsNothing(accept, cells, budget);
  }
}

=== FILE: geometry.dfy ===
/** The geometry the placement check consumes. The three distance routines the
    program imports (the vector norm, the circle–segment gap and the circle–circle
    gap) belong to a library that is not part of this model; they are carried as
    function values in a `Kernel`, and every result below holds whatever those
    functions compute. Coordinates are exact reals. */
module Geometry {

  /** A point of the plane, or a vector between two points. */
  datatype Point = Point(x: real, y: real)

  function Sub(p: Point, q: Point): Point {
    Point(p.x - q.x, p.y - q.y)
  }

  /** The imported distance routines.
      - `length(v)`: the Euclidean norm of `v`;
      - `circleLine(p, r, a, b)`: the signed gap between the disk of radius `r` at `p`
        and the finite segment from `a` to `b`, negative on overlap;
      - `circles(a, ra, b, rb)`: the signed gap `|a - b| - ra - rb` between two disks,
        negative on overlap. */
  datatype Kernel = Kernel(
    length: Point -> real,
    circleLine: (Point, real, Point, Point) -> real,
    circles: (Point, real, Point, real) -> real)

  /** The guide–guide test: the candidate `p` lies closer than two radii to the
      already placed guide `q`, i.e. `length(p - q) - 2 r` is negative. */
  predicate GuidesClash(k: Kernel, p: Point, q: Point, r: real) {
    k.length(Sub(p, q)) - 2.0 * r < 0.0
  }

  /** Every point of `pts` keeps two radii from every point placed before it:
      the guide–guide test fails for each later point against each earlier one. */
  predicate Separated(k: Kernel, pts: seq<Point>, r: real) {
    forall i, j :: 0 <= i < j < |pts| ==> !GuidesClash(k, pts[j], pts[i], r)
  }

  /** Appending a point that passed the guide–guide test against every point
      placed so far keeps the sequence separated. */
  lemma SeparatedAppend(k: Kernel, pts: seq<Point>, p: Point, r: real)
    requires Separated(k, pts, r)
    requires forall i :: 0 <= i < |pts| ==> !GuidesClash(k, p, pts[i], r)
    ensures Separated(k, pts + [p], r)
  {
    var qs := pts + [p];
    forall i, j | 0 <= i < j < |qs|
      ensures !GuidesClash(k, qs[j], qs[i], r)
    {
      assert qs[i] == pts[i];
      if j < |pts| {
        assert qs[j] == pts[j];
      }
    }
  }

  /** When `length` gives the same value for `v` and `-v`, a separated sequence is
      separated in both directions: no two distinct points clash. */
  lemma SeparatedPairwise(k: Kernel, pts: seq<Point>, r: real)
    requires forall p, q :: k.length(Sub(p, q)) == k.length(Sub(q, p))
    requires Separated(k, pts, r)
    ensures forall i, j :: 0 <= i < |pts| && 0 <= j < |pts| && i != j ==> !GuidesClash(k, pts[i], pts[j], r)
  {
    forall i, j | 0 <= i < |pts| && 0 <= j < |pts| && i != j
      ensures !GuidesClash(k, pts[i], pts[j], r)
    {
      if j < i {
        assert !GuidesClash(k, pts[i], pts[j], r);
      } else {
        assert !GuidesClash(k, pts[j], pts[i], r);
        assert k.length(Sub(pts[i], pts[j])) == k.length(Sub(pts[j], pts[i]));
      }
    }
  }
}

=== FILE: overlap.dfy ===
/** The overlap check run on every candidate guide position: how many already
    placed guides, obstacle segments and agents the guide's disk would overlap.
    A candidate is accepted exactly when that count is zero. */
module Overlap {
  import opened Geometry

  /** A pre-existing agent: a disk that stays where it is for the whole run. */
  datatype Agent = Agent(pos: Point, radius: real)

  datatype Segment = Segment(a: Point, b: Point)

  /** The read-only context of every check: the imported distance routines, the
      obstacles (each the coordinate list of a line), the agents already placed and
      the guide radius `maxR`. */
  datatype Scene = Scene(geo: Kernel, obstacles: seq<seq<Point>>, agents: seq<Agent>, maxR: real)

  /** The segments an obstacle is tested as: segment `l` joins coordinate `l` to
      coordinate `l + 1`, and the last one joins the last coordinate back to the
      first. An obstacle of a single coordinate is the zero-length segment at that
      point. */
  function Ring(coords: seq<Point>): (segs: seq<Segment>)
    ensures |segs| == |coords|
  {
    seq(|coords|, l requires 0 <= l < |coords| =>
      Segment(coords[l], coords[if l == |coords| - 1 then 0 else l + 1]))
  }

  /** The ring is closed: segment `l` runs from coordinate `l` to the coordinate
      after it, counted cyclically. */
  lemma RingIsClosed(coords: seq<Point>)
    ensures forall l :: 0 <= l < |coords| ==>
      Ring(coords)[l].a == coords[l] && Ring(coords)[l].b == coords[(l + 1) % |coords|]
  {
    var n := |coords|;
    forall l | 0 <= l < n ensures Ring(coords)[l].b == coords[(l + 1) % n] {
      if l == n - 1 {
        assert (l + 1) % n == n % n == 0;
      }
    }
  }

  /** The circle–segment gap of the guide disk at `p` and segment `s` is negative. */
  predicate HitsSegment(s: Scene, p: Point, seg: Segment) {
    s.geo.circleLine(p, s.maxR, seg.a, seg.b) < 0.0
  }

  /** The circle–circle gap of agent `a` and the guide disk at `p` is negative. */
  predicate HitsAgent(s: Scene, p: Point, a: Agent) {
    s.geo.circles(a.pos, a.radius, p, s.maxR) < 0.0
  }

  /** The number of placed guides that the candidate `p` comes too close to. */
  function GuideTally(s: Scene, placed: seq<Point>, p: Point): nat {
    if |placed| == 0 then 0 else
      var last := if GuidesClash(s.geo, p, placed[|placed| - 1], s.maxR) then 1 else 0;
      GuideTally(s, placed[..|placed| - 1], p) + last
  }

  /** The number of segments in `segs` that the candidate's disk overlaps. */
  function SegmentTally(s: Scene, segs: seq<Segment>, p: Point): nat {
    if |segs| == 0 then 0 else
      var last := if HitsSegment(s, p, segs[|segs| - 1]) then 1 else 0;
      SegmentTally(s, segs[..|segs| - 1], p) + last
  }

  /** The number of obstacle segments, over all obstacles, that the candidate's disk overlaps. */
  function ObstacleTally(s: Scene, obstacles: seq<seq<Point>>, p: Point): nat {
    if |obstacles| == 0 then 0 else
      ObstacleTally(s, obstacles[..|obstacles| - 1], p) + SegmentTally(s, Ring(obstacles[|obstacles| - 1]), p)
  }

  /** The number of agents in `agents` that the candidate's disk overlaps. */
  function AgentTally(s: Scene, agents: seq<Agent>, p: Point): nat {
    if |agents| == 0 then 0 else
      var last := if HitsAgent(s, p, agents[|agents| - 1]) then 1 else 0;
      AgentTally(s, agents[..|agents| - 1], p) + last
  }

  /** The overlap count of the candidate `p`: the three tallies added up. */
  function OverlapCount(s: Scene, placed: seq<Point>, p: Point): nat {
    GuideTally(s, placed, p) + ObstacleTally(s, s.obstacles, p) + AgentTally(s, s.agents, p)
  }

  /** No placed guide is too close to the candidate `p`. */
  predicate ClearOfGuides(s: Scene, placed: seq<Point>, p: Point) {
    forall i :: 0 <= i < |placed| ==> !GuidesClash(s.geo, p, placed[i], s.maxR)
  }

  /** The candidate's disk overlaps no segment of the obstacle with these coordinates. */
  predicate ClearOfObstacle(s: Scene, coords: seq<Point>, p: Point) {
    forall l :: 0 <= l < |Ring(coords)| ==> !HitsSegment(s, p, Ring(coords)[l])
  }

  /** The candidate's disk overlaps no agent. */
  predicate ClearOfAgents(s: Scene, agents: seq<Agent>, p: Point) {
    forall i :: 0 <= i < |agents| ==> !HitsAgent(s, p, agents[i])
  }

  /** The candidate `p` overlaps nothing: no placed guide is too close, and no
      obstacle segment and no agent has a negative gap to its disk. */
  predicate Clear(s: Scene, placed: seq<Point>, p: Point) {
    && ClearOfGuides(s, placed, p)
    && (forall o :: 0 <= o < |s.obstacles| ==> ClearOfObstacle(s, s.obstacles[o], p))
    && ClearOfAgents(s, s.agents, p)
  }

  lemma {:induction false} GuideTallyZero(s: Scene, placed: seq<Point>, p: Point)
    ensures GuideTally(s, placed, p) == 0 <==> ClearOfGuides(s, placed, p)
  {
    if |placed| > 0 {
      var init := placed[..|placed| - 1];
      GuideTallyZero(s, init, p);
      assert forall i :: 0 <= i < |init| ==> init[i] == placed[i];
    }
  }

  lemma {:induction false} SegmentTallyZero(s: Scene, segs: seq<Segment>, p: Point)
    ensures SegmentTally(s, segs, p) == 0 <==> forall l :: 0 <= l < |segs| ==> !HitsSegment(s, p, segs[l])
  {
    if |segs| > 0 {
      var init := segs[..|segs| - 1];
      SegmentTallyZero(s, init, p);
      assert forall l :: 0 <= l < |init| ==> init[l] == segs[l];
    }
  }

  lemma {:induction false} ObstacleTallyZero(s: Scene, obstacles: seq<seq<Point>>, p: Point)
    ensures ObstacleTally(s, obstacles, p) == 0 <==>
      forall o :: 0 <= o < |obstacles| ==> ClearOfObstacle(s, obstacles[o], p)
  {
    if |obstacles| > 0 {
      var init := obstacles[..|obstacles| - 1];
      var last := obstacles[|obstacles| - 1];
      ObstacleTallyZero(s, init, p);
      SegmentTallyZero(s, Ring(last), p);
      assert SegmentTally(s, Ring(last), p) == 0 <==> ClearOfObstacle(s, last, p);
      assert ObstacleTally(s, obstacles, p) == ObstacleTally(s, init, p) + SegmentTally(s, Ring(last), p);
      assert obstacles == init + [last];
    }
  }

  lemma {:induction false} AgentTallyZero(s: Scene, agents: seq<Agent>, p: Point)
    ensures AgentTally(s, agents, p) == 0 <==> ClearOfAgents(s, agents, p)
  {
    if |agents| > 0 {
      var init := agents[..|agents| - 1];
      AgentTallyZero(s, init, p);
      assert forall i :: 0 <= i < |init| ==> init[i] == agents[i];
    }
  }

  /** A candidate's overlap count is zero exactly when the candidate overlaps
      nothing, so the zero test accepts a point if and only if it is clear. */
  lemma OverlapCountZeroIffClear(s: Scene, placed: seq<Point>, p: Point)
    ensures OverlapCount(s, placed, p) == 0 <==> Clear(s, placed, p)
  {
    GuideTallyZero(s, placed, p);
    ObstacleTallyZero(s, s.obstacles, p);
    AgentTallyZero(s, s.agents, p);
  }

  /** The acceptance test of the placement loop: a candidate is kept when its
      overlap count against the guides placed so far is zero. */
  function Acceptance(s: Scene): (seq<Point>, Point) -> bool {
    (placed, p) => OverlapCount(s, placed, p) == 0
  }

  /** The acceptance test keeps a candidate exactly when it is clear. */
  lemma AcceptanceIsClear(s: Scene)
    ensures forall placed, p :: Acceptance(s)(placed, p) <==> Clear(s, placed, p)
  {
    forall placed, p ensures OverlapCount(s, placed, p) == 0 <==> Clear(s, placed, p) {
      OverlapCountZeroIffClear(s, placed, p);
    }
  }

  /** `accept` is the zero-count test of the scene `s`: it keeps a candidate
      exactly when the candidate's overlap count is zero. */
  ghost predicate IsZeroCountTest(s: Scene, accept: (seq<Point>, Point) -> bool) {
    forall placed, p {:trigger OverlapCount(s, placed, p)} :: accept(placed, p) <==> OverlapCount(s, placed, p) == 0
  }

  lemma AcceptanceIsZeroCountTest(s: Scene)
    ensures IsZeroCountTest(s, Acceptance(s))
  {
  }

  /** A zero-count test only keeps candidates that keep two radii from every
      placed guide. */
  lemma ZeroCountTestSeparates(s: Scene, accept: (seq<Point>, Point) -> bool)
    requires IsZeroCountTest(s, accept)
    ensures forall placed, p :: accept(placed, p) ==>
      forall i :: 0 <= i < |placed| ==> !GuidesClash(s.geo, p, placed[i], s.maxR)
  {
    forall placed, p | accept(placed, p)
      ensures forall i :: 0 <= i < |placed| ==> !GuidesClash(s.geo, p, placed[i], s.maxR)
    {
      assert OverlapCount(s, placed, p) == 0;
      GuideTallyZero(s, placed, p);
    }
  }

  /** The guide–guide pass: one test per placed guide. */
  method CountGuideOverlaps(s: Scene, placed: seq<Point>, p: Point) returns (n: nat)
    ensures n == GuideTally(s, placed, p)
  {
    n := 0;
    for l := 0 to |placed|
      invariant n == GuideTally(s, placed[..l], p)
    {
      assert placed[..l + 1][..l] == placed[..l];
      var d := s.geo.length(Sub(p, placed[l]));
      if d - 2.0 * s.maxR < 0.0 {
        n := n + 1;
      }
    }
    assert placed[..|placed|] == placed;
  }

  lemma SegmentTallyStep(s: Scene, segs: seq<Segment>, l: nat, p: Point)
    requires l < |segs|
    ensures SegmentTally(s, segs[..l + 1], p) ==
      SegmentTally(s, segs[..l], p) + if HitsSegment(s, p, segs[l]) then 1 else 0
  {
    assert segs[..l + 1][..l] == segs[..l];
  }

  /** The pass over one obstacle: coordinate `l` is paired with coordinate `l + 1`,
      and the last coordinate with the first. */
  method CountSegmentOverlaps(s: Scene, coords: seq<Point>, p: Point) returns (n: nat)
    ensures n == SegmentTally(s, Ring(coords), p)
  {
    ghost var segs := Ring(coords);
    n := 0;
    for l := 0 to |coords|
      invariant n == SegmentTally(s, segs[..l], p)
    {
      var h;
      if l == |coords| - 1 {
        h := s.geo.circleLine(p, s.maxR, coords[l], coords[0]);
      } else {
        h := s.geo.circleLine(p, s.maxR, coords[l], coords[l + 1]);
      }
      SegmentTallyStep(s, segs, l, p);
      assert h < 0.0 <==> HitsSegment(s, p, segs[l]);
      if h < 0.0 {
        n := n + 1;
      }
    }
    assert segs[..|coords|] == segs;
  }

  /** The obstacle pass: every obstacle in turn. */
  method CountObstacleOverlaps(s: Scene, p: Point) returns (n: nat)
    ensures n == ObstacleTally(s, s.obstacles, p)
  {
    n := 0;
    for o := 0 to |s.obstacles|
      invariant n == ObstacleTally(s, s.obstacles[..o], p)
    {
      var m := CountSegmentOverlaps(s, s.obstacles[o], p);
      assert s.obstacles[..o + 1][..o] == s.obstacles[..o];
      n := n + m;
    }
    assert s.obstacles[..|s.obstacles|] == s.obstacles;
  }

  /** The agent pass: one circle–circle test per agent. */
  method CountAgentOverlaps(s: Scene, p: Point) returns (n: nat)
    ensures n == AgentTally(s, s.agents, p)
  {
    n := 0;
    for i := 0 to |s.agents|
      invariant n == AgentTally(s, s.agents[..i], p)
    {
      assert s.agents[..i + 1][..i] == s.agents[..i];
      var h := s.geo.circles(s.agents[i].pos, s.agents[i].radius, p, s.maxR);
      if h < 0.0 {
        n := n + 1;
      }
    }
    assert s.agents[..|s.agents|] == s.agents;
  }

  /** Counts the overlaps of the candidate `p` as the program does, adding up the
      guide, obstacle and agent passes; zero accepts the candidate. */
  method CountOverlaps(s: Scene, placed: seq<Point>, p: Point) returns (n: nat)
    ensures n == OverlapCount(s, placed, p)
  {
    var guides := CountGuideOverlaps(s, placed, p);
    var obstacles := CountObstacleOverlaps(s, p);
    var agents := CountAgentOverlaps(s, p);
    n := guides + obstacles + agents;
  }
}

=== FILE: sampler.dfy ===
/** The area-weighted sampler of a cell's region. The region is given as a mesh of
    triangles (a triangulation of the convex hull of each of its parts, the parts'
    triangles put together in one sequence). A candidate is drawn by choosing a
    triangle with probability proportional to its area (a search of a uniform
    number over the normalized running totals of the areas) and then a point
    inside that triangle (two uniform numbers folded into barycentric
    coordinates). The random numbers are the fields of a `Draw`. */
module Sampler {
  import opened Geometry

  datatype Triangle = Triangle(a: Point, b: Point, c: Point)

  function Abs(x: real): (r: real)
    ensures 0.0 <= r && (r == x || r == -x)
  {
    if x < 0.0 then -x else x
  }

  function Cross(u: Point, v: Point): real {
    u.x * v.y - u.y * v.x
  }

  /** The area of a triangle: half the absolute cross product of two edges. */
  function Area(t: Triangle): (r: real)
    ensures 0.0 <= r
  {
    Abs(Cross(Sub(t.b, t.a), Sub(t.c, t.a))) / 2.0
  }

  /** The areas of the triangles, in mesh order. */
  function Areas(mesh: seq<Triangle>): (a: seq<real>)
    ensures |a| == |mesh|
  {
    seq(|mesh|, i requires 0 <= i < |mesh| => Area(mesh[i]))
  }

  /** The sum of `a`, added up front to back. */
  function Sum(a: seq<real>): real {
    if |a| == 0 then 0.0 else Sum(a[..|a| - 1]) + a[|a| - 1]
  }

  predicate NonNegative(a: seq<real>) {
    forall i :: 0 <= i < |a| ==> 0.0 <= a[i]
  }

  predicate Nondecreasing(w: seq<real>) {
    forall i, j :: 0 <= i <= j < |w| ==> w[i] <= w[j]
  }

  /** The running sums of `a`: entry `i` is the sum of the first `i + 1` entries. */
  function RunningSums(a: seq<real>): (w: seq<real>)
    ensures |w| == |a|
  {
    seq(|a|, i requires 0 <= i < |a| => Sum(a[..i + 1]))
  }

  /** The summed area of the triangles of `mesh`. */
  function TotalArea(mesh: seq<Triangle>): real {
    Sum(Areas(mesh))
  }

  /** The running totals of the triangle areas, in mesh order: entry `i` is the area
      of the first `i + 1` triangles. */
  function CumulativeAreas(mesh: seq<Triangle>): (w: seq<real>)
    ensures |w| == |mesh|
  {
    RunningSums(Areas(mesh))
  }

  /** Of non-negative terms, a shorter prefix never sums to more than a longer one. */
  lemma {:induction false} SumMonotone(a: seq<real>, i: nat, j: nat)
    requires NonNegative(a) && i <= j <= |a|
    ensures 0.0 <= Sum(a[..i]) <= Sum(a[..j])
    decreases j
  {
    if j > 0 {
      assert a[..j][..j - 1] == a[..j - 1];
      if i < j {
        SumMonotone(a, i, j - 1);
      } else {
        SumMonotone(a, j - 1, j - 1);
      }
    }
  }

  /** The running sums of non-negative terms never decrease and are never negative. */
  lemma RunningSumsNondecreasing(a: seq<real>)
    requires NonNegative(a)
    ensures Nondecreasing(RunningSums(a)) && NonNegative(RunningSums(a))
  {
    var w := RunningSums(a);
    forall i, j | 0 <= i <= j < |w| ensures 0.0 <= w[i] <= w[j] {
      SumMonotone(a, i + 1, j + 1);
    }
  }

  /** Each running sum adds one term to the one before it. */
  lemma RunningSumsStep(a: seq<real>, i: nat)
    requires i < |a|
    ensures RunningSums(a)[i] == (if i == 0 then 0.0 else RunningSums(a)[i - 1]) + a[i]
  {
    var pre := a[..i + 1];
    assert pre[..i] == a[..i];
    assert Sum(pre) == Sum(a[..i]) + a[i];
    if i == 0 {
      assert a[..i] == [];
    }
  }

  /** The last running sum is the sum of all terms. */
  lemma RunningSumsLast(a: seq<real>)
    requires 0 < |a|
    ensures RunningSums(a)[|a| - 1] == Sum(a)
  {
    var w := RunningSums(a);
    assert w[|a| - 1] == Sum(a[..|a|]);
    assert a[..|a|] == a;
  }

  /** The running area totals of the mesh, computed with one running sum. */
  method AreaCumsum(mesh: seq<Triangle>) returns (w: seq<real>)
    ensures w == CumulativeAreas(mesh)
    ensures Nondecreasing(w) && (0 < |mesh| ==> w[|mesh| - 1] == TotalArea(mesh))
  {
    var a := Areas(mesh);
    w := [];
    var total := 0.0;
    for i := 0 to |mesh|
      invariant |w| == i
      invariant total == Sum(a[..i])
      invariant forall k :: 0 <= k < i ==> w[k] == Sum(a[..k + 1])
    {
      assert a[..i + 1][..i] == a[..i];
      total := total + Area(mesh[i]);
      w := w + [total];
    }
    RunningSumsNondecreasing(a);
    if 0 < |mesh| {
      RunningSumsLast(a);
    }
  }

  /** Every running total divided by the last one. */
  function Normalize(w: seq<real>): (r: seq<real>)
    requires 0 < |w| && 0.0 < w[|w| - 1]
    ensures |r| == |w|
  {
    seq(|w|, i requires 0 <= i < |w| => w[i] / w[|w| - 1])
  }

  /** Division by a positive number keeps order. */
  lemma DivideMonotone(a: real, b: real, t: real)
    requires a <= b && 0.0 < t
    ensures a / t <= b / t
  {
  }

  /** Dividing non-negative, nondecreasing totals by the positive last one keeps
      them nondecreasing, puts them in [0, 1] and makes the last one exactly 1. */
  lemma NormalizedWeights(w: seq<real>)
    requires 0 < |w| && 0.0 < w[|w| - 1]
    requires Nondecreasing(w) && 0.0 <= w[0]
    ensures Nondecreasing(Normalize(w))
    ensures Normalize(w)[|w| - 1] == 1.0
    ensures forall i :: 0 <= i < |w| ==> 0.0 <= Normalize(w)[i] <= 1.0
  {
    var total := w[|w| - 1];
    var r := Normalize(w);
    assert total / total == 1.0;
    forall i | 0 <= i < |w| ensures 0.0 <= r[i] <= 1.0 {
      DivideMonotone(0.0, w[i], total);
      DivideMonotone(w[i], total, total);
    }
    forall i, j | 0 <= i <= j < |w| ensures r[i] <= r[j] {
      DivideMonotone(w[i], w[j], total);
    }
  }

  /** The index of the first weight that is at least `x` (`|w|` when there is
      none): the position at which `x` would be inserted in front of equal weights. */
  function LowerBound(w: seq<real>, x: real): nat
    decreases |w|
  {
    if |w| == 0 || x <= w[0] then 0 else 1 + LowerBound(w[1..], x)
  }

  lemma {:induction false} LowerBoundIsFirstAtLeast(w: seq<real>, x: real)
    ensures LowerBound(w, x) <= |w|
    ensures forall j :: 0 <= j < LowerBound(w, x) ==> w[j] < x
    ensures LowerBound(w, x) < |w| ==> x <= w[LowerBound(w, x)]
    decreases |w|
  {
    if |w| > 0 && w[0] < x {
      LowerBoundIsFirstAtLeast(w[1..], x);
      forall j | 0 < j < LowerBound(w, x) ensures w[j] < x {
        assert w[j] == w[1..][j - 1];
      }
    }
  }

  /** The first-at-least index is the only index with weights below `x` before it
      and a weight at least `x` at it (or at the end). */
  lemma LowerBoundUnique(w: seq<real>, x: real, i: nat)
    requires i <= |w|
    requires forall j :: 0 <= j < i ==> w[j] < x
    requires i < |w| ==> x <= w[i]
    ensures i == LowerBound(w, x)
  {
    LowerBoundIsFirstAtLeast(w, x);
  }

  /** With a last weight at least `x`, the chosen index is a valid triangle index. */
  lemma LowerBoundInRange(w: seq<real>, x: real)
    requires 0 < |w| && x <= w[|w| - 1]
    ensures LowerBound(w, x) < |w|
  {
    LowerBoundIsFirstAtLeast(w, x);
  }

  /** The triangle search over sorted weights: a binary search for the first
      weight that is at least `x`. */
  method SearchSorted(w: seq<real>, x: real) returns (i: nat)
    requires Nondecreasing(w)
    ensures i <= |w|
    ensures forall j :: 0 <= j < i ==> w[j] < x
    ensures i < |w| ==> x <= w[i]
    ensures i == LowerBound(w, x)
  {
    var lo, hi := 0, |w|;
    while lo < hi
      invariant 0 <= lo <= hi <= |w|
      invariant forall j :: 0 <= j < lo ==> w[j] < x
      invariant forall j :: hi <= j < |w| ==> x <= w[j]
      decreases hi - lo
    {
      var mid := (lo + hi) / 2;
      if w[mid] < x {
        lo := mid + 1;
      } else {
        hi := mid;
      }
    }
    i := lo;
    LowerBoundUnique(w, x, i);
  }

  /** The barycentric coordinates for two uniform numbers: kept when their sum is at
      most one, otherwise reflected into the lower half of the unit square. */
  function Fold(u: real, v: real): (r: (real, real))
    requires 0.0 <= u <= 1.0 && 0.0 <= v <= 1.0
    ensures 0.0 <= r.0 && 0.0 <= r.1 && r.0 + r.1 <= 1.0
    ensures u + v <= 1.0 ==> r == (u, v)
    ensures 1.0 < u + v ==> r.0 + u == 1.0 && r.1 + v == 1.0
  {
    if u + v > 1.0 then (1.0 - u, 1.0 - v) else (u, v)
  }

  /** The point `a + s (b - a) + r (c - a)` of triangle `abc`. */
  function Barycentric(t: Triangle, s: real, r: real): Point {
    Point(t.a.x + s * (t.b.x - t.a.x) + r * (t.c.x - t.a.x),
          t.a.y + s * (t.b.y - t.a.y) + r * (t.c.y - t.a.y))
  }

  /** `p` lies in the closed triangle `t`. */
  ghost predicate InTriangle(p: Point, t: Triangle) {
    exists s: real, r: real :: 0.0 <= s && 0.0 <= r && s + r <= 1.0 && p == Barycentric(t, s, r)
  }

  /** A point of the triangle drawn from the uniform numbers `u` and `v`. */
  function SampleTriangle(t: Triangle, u: real, v: real): (p: Point)
    requires 0.0 <= u <= 1.0 && 0.0 <= v <= 1.0
    ensures InTriangle(p, t)
  {
    var f := Fold(u, v);
    var p := Barycentric(t, f.0, f.1);
    assert InTriangle(p, t) by {
      assert 0.0 <= f.0 && 0.0 <= f.1 && f.0 + f.1 <= 1.0 && p == Barycentric(t, f.0, f.1);
    }
    p
  }

  /** The random numbers of one draw: `x` chooses the triangle, `u` and `v` the point. */
  datatype Draw = Draw(x: real, u: real, v: real)

  /** The ranges the random source yields: `x` in [0, 1), `u` and `v` in [0, 1]. */
  predicate ValidDraw(d: Draw) {
    0.0 <= d.x < 1.0 && 0.0 <= d.u <= 1.0 && 0.0 <= d.v <= 1.0
  }

  /** A mesh the weights can be normalized for: at least one triangle and a
      positive total area. */
  predicate ValidMesh(mesh: seq<Triangle>) {
    0 < |mesh| && 0.0 < TotalArea(mesh)
  }

  /** The normalized running area totals of the mesh. */
  function Weights(mesh: seq<Triangle>): (w: seq<real>)
    requires ValidMesh(mesh)
    ensures |w| == |mesh|
    ensures Nondecreasing(w) && w[|w| - 1] == 1.0
    ensures forall i :: 0 <= i < |w| ==> 0.0 <= w[i] <= 1.0
  {
    RunningSumsNondecreasing(Areas(mesh));
    RunningSumsLast(Areas(mesh));
    NormalizedWeights(CumulativeAreas(mesh));
    Normalize(CumulativeAreas(mesh))
  }

  /** Normalizing divides the step between neighbouring totals by the last total. */
  lemma NormalizeStep(c: seq<real>, i: nat)
    requires 0 < |c| && 0.0 < c[|c| - 1] && i < |c|
    ensures Normalize(c)[i] ==
      (if i == 0 then 0.0 else Normalize(c)[i - 1]) + (c[i] - (if i == 0 then 0.0 else c[i - 1])) / c[|c| - 1]
  {
    var t := c[|c| - 1];
    var before := if i == 0 then 0.0 else c[i - 1];
    assert (if i == 0 then 0.0 else Normalize(c)[i - 1]) == before / t;
    assert c[i] / t == before / t + (c[i] - before) / t;
  }

  /** Each weight adds the share of the total area that its triangle covers to the
      weight before it, so the gap below weight `i` is the probability with which
      a uniform number chooses triangle `i`. */
  lemma WeightsAreAreaShares(mesh: seq<Triangle>)
    requires ValidMesh(mesh)
    ensures forall i :: 0 <= i < |mesh| ==>
      Weights(mesh)[i] == (if i == 0 then 0.0 else Weights(mesh)[i - 1]) + Area(mesh[i]) / TotalArea(mesh)
  {
    var a := Areas(mesh);
    var cum := CumulativeAreas(mesh);
    RunningSumsLast(a);
    forall i | 0 <= i < |mesh|
      ensures Weights(mesh)[i] == (if i == 0 then 0.0 else Weights(mesh)[i - 1]) + Area(mesh[i]) / TotalArea(mesh)
    {
      RunningSumsStep(a, i);
      NormalizeStep(cum, i);
    }
  }

  /** A triangle chosen by a positive `x` has positive area: only a triangle that
      raises the running total can be the first to reach `x`. */
  lemma PositiveDrawPicksPositiveArea(mesh: seq<Triangle>, x: real)
    requires ValidMesh(mesh) && 0.0 < x < 1.0
    ensures LowerBound(Weights(mesh), x) < |mesh|
    ensures 0.0 < Area(mesh[LowerBound(Weights(mesh), x)])
  {
    var w := Weights(mesh);
    var cum := CumulativeAreas(mesh);
    var i := LowerBound(w, x);
    LowerBoundIsFirstAtLeast(w, x);
    RunningSumsNondecreasing(Areas(mesh));
    RunningSumsLast(Areas(mesh));
    RunningSumsStep(Areas(mesh), i);
    var total := cum[|cum| - 1];
    assert w[i] == cum[i] / total;
    if i == 0 {
      assert 0.0 < cum[0];
    } else {
      assert w[i - 1] == cum[i - 1] / total;
      assert w[i - 1] < w[i];
      assert cum[i - 1] < cum[i];
    }
  }

  /** One candidate of the mesh's sampler: the chosen triangle's index and the
      point drawn in it. */
  function SampleMesh(mesh: seq<Triangle>, d: Draw): (r: (nat, Point))
    requires ValidMesh(mesh) && ValidDraw(d)
    ensures r.0 < |mesh| && InTriangle(r.1, mesh[r.0])
    ensures r.0 == LowerBound(Weights(mesh), d.x)
    ensures 0.0 < d.x ==> 0.0 < Area(mesh[r.0])
  {
    var w := Weights(mesh);
    var i := LowerBound(w, d.x);
    LowerBoundInRange(w, d.x);
    assert 0.0 < d.x ==> 0.0 < Area(mesh[i]) by {
      if 0.0 < d.x {
        PositiveDrawPicksPositiveArea(mesh, d.x);
      }
    }
    (i, SampleTriangle(mesh[i], d.u, d.v))
  }

  /** `p` lies in some triangle of the mesh. */
  ghost predicate InMesh(p: Point, mesh: seq<Triangle>) {
    exists i :: 0 <= i < |mesh| && InTriangle(p, mesh[i])
  }
}
